=== FILE: README.md ===
# frame-player: the playback and loading state machine, in Dafny

This project models the core of frame-player, a browser widget that plays a
sequence of images as a movie. The model covers the player
(`src/player.js`) and the frame record it drives (`src/frame.js`).

The player is one record (`PlayerModel.Player`). It holds:

- the frame array, as `{url, loaded}` frames;
- two independent state axes: `playerState` (STOPPED, PLAYING, BUFFERING) and `loaderState` (STOPPED, LOADING, COMPLETE);
- the nullable playhead `currentFrame` and the nullable load progress `lastFrameLoaded`;
- `ready` and the options (`loop`, `bufferSize`, the per-index `onEnterFrame<n>`/`onExitFrame<n>` hooks).

Every public call, and every asynchronous resumption, is a pure function from
a record to a new record plus the list of callbacks fired (`PlayerModel.Out`).
The code sets three kinds of callbacks going. Each becomes an explicit input
of `PlayerApi.Step`:

- `TimerFires`: the body of the frame-advance timeout scheduled by `doPlay`. The record keeps it as `tickPending`.
- `PollFires`: a 500 ms `doBuffer` poll. The record counts them in `pendingPolls`.
- `ImageArrives(j)`: the `onload` of the `j`-th image in flight, together with the loader's `.done` callback. The record keeps the images in flight in `fetches`.

A failed image has no input: its `onload` never fires and its promise never
settles, so its fetch stays in flight for good.

A JavaScript callback captures the frame *object*. `clearFrames` and
`reset(true)` replace the frame array, so an image that arrives afterwards
marks an orphaned object as loaded. The model represents this with a
`generation` counter, bumped whenever the array is replaced. A fetch records
the generation and index of the frame it was started for.

## Behaviour worth knowing

The members named below show each of these:

- `stop()` does not cancel the advance timeout. If the timeout then fires onto an unloaded frame, it calls `buffer()`, which takes the player out of STOPPED. If the buffer is already sufficient, the player even enters that frame (`StaleTickAfterStop`).
- The loader is not single-flight. `stop()` followed by `play()` while an image is in flight starts a second fetch (`StopThenPlayRefetches`). A concrete run shows two fetches of frame 0 in flight at once (`DuplicateFetchRun`).
- "COMPLETE implies the last frame is the last one loaded" does not hold in general:
  - a late duplicate image lowers `lastFrameLoaded` under a COMPLETE loader (`DuplicateFetchRun`);
  - `reset(true)` keeps a COMPLETE loader with no frames (`ResetKeepsComplete`);
  - a fetch that outlives `clearFrames` can complete the load of an empty array (`StaleFetchCompletesEmptyArray`).
  
  It does hold for a fetch of the current array (`ChainedFetchIsNext`).
- A failed image is not marked loaded and does not continue the chain (`FrameModel.Load`).
- `clearFrames` (and so `setFrames`) keeps `lastFrameLoaded`. The next `load()` then starts after it and skips unloaded frames (`SetFramesSkipsFrames`).
- `goToFrame(n)` stores any integer, valid or not (`PlayerApi.GoToFrame`).

## Model

| member | source | states |
|---|---|---|
| FrameModel.New | src/frame.js:44-49 | a new frame carries the constructor's URL and is not loaded |
| FrameModel.Load | src/frame.js:57-73 | the promise resolves only after `loaded` is set; the URL is untouched; a failed image leaves the frame as it was and the promise unresolved (no error path) |
| FrameModel.LoadHistory | src/frame.js:57-94 | over any series of fetch outcomes, `getUrl()` keeps returning the same URL, and `isLoaded()` holds iff it held before or some image arrived: `loaded` only moves false to true |
| FrameModel.NewFrameHistory | src/frame.js:44-94 | a constructed frame keeps its URL forever and is loaded exactly when one of its images has arrived |
| BufferPolicy.CeilDiv | src/player.js:359 | the result is the integer ceiling of the quotient, bracketed from both sides |
| BufferPolicy.RequiresBuffer | src/player.js:347-372 | never buffer when the loader is COMPLETE or the size is unparsable; otherwise buffer iff the lookahead `(last or 0) - (current or 0)` is below the size. For a percentage `pc` this is `100 * lookahead < frames * pc`, with the ceiling eliminated |
| BufferPolicy.RequiresBufferAntitone | src/player.js:350-368 | more loaded frames ahead of the playhead never turn "no need to buffer" into "must buffer" |
| BufferPolicy.ThirtyPercentOfTen | src/player.js:356-368 | 10 frames at "30%" require 3; last loaded 2 with playhead 0 buffers, last loaded 5 does not |
| Loader.FirstUnloadedFrom | src/player.js:586-591 | the result is the first unloaded frame at or after the start; all frames before it are loaded; none exists iff all are loaded |
| Loader.FindFirstUnloaded | src/player.js:586-591 | the loop with early exit finds the first unloaded frame, or none when every frame is loaded |
| Loader.ResumePoint | src/player.js:580-599 | with no progress, the first unloaded frame; otherwise `lastFrameLoaded + 1` exactly when that frame exists; always a valid index |
| Loader.Load | src/player.js:574-619 | does nothing unless ready, loader STOPPED and a resume point exists; otherwise LOADING, `onLoadStart`, and a fetch of the resume point |
| Loader.MarkLoaded | src/frame.js:64-67 | the arriving image marks its frame loaded only if that frame is still in the array; no URL changes and no other flag changes |
| Loader.FetchDone | src/player.js:633-653 | sets `lastFrameLoaded := k`; only while LOADING does it fetch `k + 1` if that frame exists (firing `onLoadProgress(k + 1, N)` twice: once for the arrival, once from `doLoad`), or enter COMPLETE and fire `onLoadComplete` once; otherwise the loader state is kept; playback state is untouched |
| Playback.EnterEvents | src/player.js:442-449 | entering frame `n` fires `onEnterFrame(n)` first, `onEnterFrame<n>` iff that hook exists, and renders only an existing frame, with its URL |
| Playback.ExitEvents | src/player.js:463-468 | leaving fires `onExitFrame` with the raw playhead first, then the per-index `onExitFrame<n>` exactly when the playhead is the number `n` and that hook is configured |
| Playback.DoPlay | src/player.js:432-461 | a stopped player does nothing; otherwise the playhead becomes `current or 0`, that frame is entered and an advance is scheduled |
| Playback.DoBuffer | src/player.js:537-566 | STOPPED: only `onBufferStop`. Otherwise a short buffer schedules another poll and changes nothing else; a sufficient buffer returns to PLAYING, fires `onBufferStop` and enters the current frame |
| Playback.Buffer | src/player.js:512-529 | fires `onBufferStart` and ends BUFFERING iff the buffer is short, else PLAYING with the frame entered |
| Playback.Poll | src/player.js:544-546 | a firing poll re-runs `doBuffer`: STOPPED gives only `onBufferStop`, a sufficient buffer gives PLAYING with the advance scheduled and the events `onBufferStop` then the entry of `current or 0`, a short one schedules the next poll |
| Playback.Stop | src/player.js:684-698 | a ready, running player becomes STOPPED with `onStop`, and a LOADING loader stops with `onLoadStop`; COMPLETE is kept; a stopped player is unchanged; the scheduled advance survives |
| Playback.Play | src/player.js:380-424 | acts only when ready, STOPPED and with frames, and then fires `onPlay` first and leaves STOPPED; otherwise a no-op |
| Playback.PlayStarts | src/player.js:380-424 | after `play()` the player is BUFFERING (with `onBufferStart`) iff the buffer is short, else PLAYING with the current frame entered; a stopped loader is started from its resume point |
| Playback.Advance | src/player.js:470-484 | with a next frame the playhead moves to it; an unloaded frame starts buffering, and when the buffer already suffices `onBufferStop` follows at once, the frame is entered and the next advance is scheduled; a loaded one is entered unless the player is stopped |
| Playback.Wrap | src/player.js:485-498 | at the end the playhead returns to 0; with `loop`, `onLoop` fires and then a running player re-enters frame 0 (its hooks and render) with the next advance scheduled, while a stopped one fires only `onLoop`; otherwise `stop()` |
| Playback.Tick | src/player.js:461-500 | the exit hooks fire before everything else; the playhead ends at `n + 1` if that frame exists, else 0; a valid playhead stays valid; frames, fetches and load progress are untouched |
| Playback.TickMovesOn | src/player.js:470-484 | moving onto an unloaded frame fires `onBufferStart` and stays BUFFERING iff the buffer is short, and with a sufficient buffer fires exactly `onBufferStart`, `onBufferStop` and the entry of `n+1` and schedules the next advance; a loaded frame is entered (exit hooks, then `onEnterFrame(n+1)`), and nothing more happens if the player was stopped |
| Playback.TickAtEnd | src/player.js:485-498 | past the last frame the playhead is 0; with `loop`, `onLoop` fires exactly once right after the exit hooks, followed by the re-entry of frame 0 when the player is running and by nothing when it is stopped; without, the player ends STOPPED with no advance scheduled |
| FrameList.AddFrame | src/player.js:262-271 | appends one unloaded frame with the given URL at index N and forces the loader to STOPPED; existing frames, playhead and progress are unchanged |
| FrameList.AddFrames | src/player.js:246-253 | appends every URL in order as unloaded frames; the loader is forced to STOPPED iff at least one was added |
| FrameList.ClearFrames | src/player.js:232-237 | empties the frame array but keeps `lastFrameLoaded`, the playhead and both states |
| FrameList.SetFrames | src/player.js:213-224 | afterwards `getNumFrames()` equals the number of URLs and every frame is unloaded with its URL; `lastFrameLoaded` survives |
| PlayerApi.GoToFrame | src/player.js:280-291 | a ready player stores any index as the playhead and renders it only if it exists; a player that is not ready is unchanged |
| PlayerApi.Reset | src/player.js:776-815 | stops first, then with `clear` empties frames, playhead and progress, or else sets the playhead to 0; fires `onReset` then `onReady`; the loader state is whatever `stop()` left |
| PlayerApi.Construct | src/player.js:145-204 | the constructed player is ready with one frame per URL; `onReady` fires first; it is running iff frames exist and `autoPlay` is set; with frames, `autoLoad` and no `autoPlay` it starts LOADING with one fetch of frame 0 and fires `onLoadStart` right after `onReady`; with neither flag (or no frames) the loader stays STOPPED with nothing in flight |
| PlayerProperties.ConstructEstablishesInv | src/player.js:145-204 | a newly constructed player satisfies the invariant |
| PlayerProperties.PlayPreservesInv | src/player.js:380-424 | `play()` keeps the invariant |
| PlayerProperties.FetchDonePreservesInv | src/player.js:633-653 | an arriving image keeps the invariant: a chained fetch points into the current array and LOADING always has a fetch in flight |
| PlayerProperties.ResetPreservesInv | src/player.js:776-815 | `reset` keeps the invariant |
| PlayerProperties.StepPreservesInv | src/player.js:213-815 | every call and every resumption keeps the invariant |
| PlayerProperties.RunPreservesInv | src/player.js:213-815 | every run of calls and resumptions keeps the invariant |
| PlayerProperties.StepGrows | src/player.js:262-271 | no step shrinks the current frame array, changes a URL or unloads a frame |
| PlayerProperties.RunGrows | src/frame.js:64-67 | over any run, a frame of the same array keeps its URL and stays loaded once loaded |
| PlayerProperties.OnlyImagesMarkLoaded | src/frame.js:64-67 | no step other than an arriving image changes a load flag |
| PlayerProperties.ChainedFetchIsNext | src/player.js:641-652 | a current-array fetch completing while LOADING chains exactly index `k + 1` of the same array, or enters COMPLETE with `lastFrameLoaded == N - 1` and one `onLoadComplete` |
| PlayerProperties.StaleFetchCompletesEmptyArray | src/player.js:633-653 | a fetch that outlived `clearFrames` sets `lastFrameLoaded` to its index and completes the load of an empty array |
| PlayerProperties.StopThenPlayRefetches | src/player.js:574-619 | `stop()` then `play()` during loading adds a second fetch while the first is still in flight |
| PlayerProperties.SetFramesSkipsFrames | src/player.js:232-237 | after `setFrames` the resume point is the old `lastFrameLoaded + 1` although frame 0 is unloaded |
| PlayerProperties.ResetKeepsComplete | src/player.js:776-815 | `reset(true)` keeps a COMPLETE loader with no frames and no progress |
| PlayerProperties.StaleTickAfterStop | src/player.js:684-698 | after `stop()` the advance is still scheduled; onto an unloaded frame it leaves STOPPED via `onBufferStart`, and with a sufficient buffer it plays and enters the frame |
| PlayerProperties.ResumptionKeepsPlayheadInRange | src/player.js:470-498 | an advance, a buffer poll or an arriving image keeps a playhead in `[0, N)` within `[0, N)` |
| PlayerProperties.UnattendedRunKeepsPlayheadInRange | src/player.js:470-498 | over any run of advances, polls and arriving images with no public call, a playhead in `[0, N)` stays in `[0, N)` |
| PlayerProperties.LoopFromLastFrame | src/player.js:485-493 | with `loop` and 4 frames, advancing from frame 3 goes to 0 and fires `onLoop` |
| PlayerProperties.StopAfterLastFrame | src/player.js:494-497 | without `loop`, advancing past frame 3 of 4 leaves the player STOPPED |
| PlayerProperties.DuplicateFetchRunFrom | src/player.js:633-653 | from any ready player with two unloaded frames, nothing loaded or in flight and both states STOPPED, play, stop, play, then three images leave two fetches of frame 0 in flight and end COMPLETE with `lastFrameLoaded == 0` of 2 frames |
| PlayerProperties.DuplicateFetchRun | src/player.js:633-653 | a concrete run (play, stop, play, then three images) has two fetches of frame 0 in flight and ends COMPLETE with `lastFrameLoaded == 0` of 2 frames |

## Left out

- Rendering: canvas CSS/HTML, render modes, and the scrubber's `.current`/`.loaded` widths are not modelled. The `buffering` class is left out too. A render is the event `Render(n, url)`, fired only for an existing frame.
- Floating point is not modelled. This covers the played/loaded percentages, including their division by zero at one frame, and `frameDelay`. `onLoadProgress` carries only the integer count `(last or 0) + 1` and the total.
- BufferPolicy.RequiresBuffer: uses an exact integer ceiling of `frames * pc / 100`. JavaScript computes `frames * (parseInt(pc) / 100)` in floating point, which can round differently. A numeric `bufferSize` is taken as already an integer.
- Timers and image fetching are not modelled as such. They are the inputs `TimerFires`, `PollFires` and `ImageArrives`. The model does not order these inputs by delay or frame rate: any resumption that is pending may fire next.
- The getters (`getPlayerState`, `getLoaderState`, `getCurrentFrame`, `getNumFrames` in `PlayerModel`, and the frame's `getUrl`/`isLoaded` as `FrameModel.GetUrl`/`FrameModel.IsLoaded`, src/frame.js:81-94) are plain field reads. Their contracts would only restate the fields, so they are used in lemmas rather than given their own.
- `PlayerApi.Step` and `PlayerApi.Run` only dispatch and compose. Their properties are the invariant and monotonicity lemmas.
- `loadStop()`, `doLoad()`, the initial field values and the first half of the fetch callback are small helpers (`Loader.LoadStop`, `Loader.DoLoad`, `PlayerModel.Initial`, `Loader.Settle`). Their contracts only spell out their effect. They are covered through `Playback.Stop`, `Loader.Load` and `Loader.FetchDone`.
- Option merging and the DOM lookups of the constructor are not modelled.
- The cover-image branches of the constructor and of `reset(false)` are not modelled. They test the player's own `coverImg` option and, failing that, the length of the browser's global `frames` rather than the player's frames. So the constructed player always keeps `currentFrame == null` and renders nothing, where the code's `goToFrame(0)` would set the playhead to 0 and render frame 0 whenever the global `frames` is non-empty and no cover image is set. Likewise `reset(false)` sets the playhead to 0 without rendering.
- User hooks (`onPlay`, `onEnterFrame`, `onExitFrame` and the rest) run synchronously in the middle of a transition in the code, for example `onPlay` before `load()` and `requiresBuffer()`, and the exit hooks before the playhead is read again. The model takes every hook to be an inert event that does not call back into the player. A hook that calls `stop()`, `goToFrame()` or `addFrame()` would change what follows, and that is not modelled.
- Logging, warnings and errors are not modelled, including "Invalid Frame Number" from `renderFrame` and "not ready" warnings. The operations themselves are no-ops in those cases, as modelled.
- The playhead and indices are integers. A non-integer `goToFrame` argument is not modelled.
- `dist/frameplayer.js` (an older build), `Gruntfile.js` and `src/main.js` (the namespace declaration) are not part of this model.

=== FILE: buffer_policy.dfy ===
/** `requiresBuffer`: whether the playhead is too close to the last loaded
    frame to keep playing. */
module BufferPolicy {
  import opened Nullable
  import opened PlayerModel

  /** The ceiling of `a / b` (Dafny's `/` floors for a positive divisor). */
  function CeilDiv(a: int, b: int): (q: int)
    requires b > 0
    ensures b * (q - 1) < a <= b * q
  {
    var q := (a + b - 1) / b;
    assert a + b - 1 == b * q + (a + b - 1) % b;
    assert b * (q - 1) == b * q - b;
    q
  }

  /** The number of frames that must be loaded ahead of the playhead, or
      `None` when `parseInt` yields NaN. A percentage is of the whole movie:
      `Math.ceil(frames.length * p / 100)`. */
  function RequiredFrames(numFrames: nat, size: BufferSize): Option<int> {
    match size
    case Percent(p) => Some(CeilDiv(numFrames * p, 100))
    case Frames(n) => Some(n)
    case Unparsable => None
  }

  /** Loaded frames ahead of the playhead; both indices read `null` as 0. */
  function Lookahead(p: Player): int {
    p.lastFrameLoaded.GetOr(0) - p.currentFrame.GetOr(0)
  }

  /** `requiresBuffer()`: never once loading is complete, nor for an
      unparsable size; otherwise while the lookahead is below the configured
      size. For a percentage `pc` of the movie the ceiling drops out: the
      lookahead is short exactly when `100 * lookahead < frames * pc`. */
  function RequiresBuffer(p: Player): (b: bool)
    ensures p.loaderState == Complete ==> !b
    ensures p.config.bufferSize.Percent? ==>
      (b <==> p.loaderState != Complete && 100 * Lookahead(p) < |p.frames| * p.config.bufferSize.percent)
    ensures p.config.bufferSize.Frames? ==>
      (b <==> p.loaderState != Complete && Lookahead(p) < p.config.bufferSize.count)
    ensures p.config.bufferSize.Unparsable? ==> !b
  {
    if p.loaderState != Complete then
      match RequiredFrames(|p.frames|, p.config.bufferSize)
      case Some(required) => Lookahead(p) < required
      case None => false
    else
      false
  }

  /** Loading more frames never creates a need to buffer, and neither does a
      playhead further back. */
  lemma RequiresBufferAntitone(p: Player, q: Player)
    requires q.config == p.config && |q.frames| == |p.frames|
    requires (q.loaderState == Complete) == (p.loaderState == Complete)
    requires Lookahead(q) >= Lookahead(p)
    ensures RequiresBuffer(q) ==> RequiresBuffer(p)
  {
  }

  /** The documented example: 10 frames, "30%", playhead at 0. Three frames
      are required; with frame 2 loaded last the player buffers, with frame 5
      it does not. */
  lemma ThirtyPercentOfTen(p: Player)
    requires |p.frames| == 10 && p.config.bufferSize == Percent(30)
    requires p.currentFrame == Some(0) && p.loaderState != Complete
    ensures RequiredFrames(10, Percent(30)) == Some(3)
    ensures p.lastFrameLoaded == Some(2) ==> RequiresBuffer(p)
    ensures p.lastFrameLoaded == Some(5) ==> !RequiresBuffer(p)
  {
  }
}

=== FILE: frame.dfy ===
/** One frame of the animation (`src/frame.js`): a URL and whether its image
    has been fetched. */
module FrameModel {

  datatype Frame = Frame(url: string, loaded: bool)

  /** How the browser's fetch of the frame's image ends. A failed image
      never fires `onload`; there is no error handler. */
  datatype ImageOutcome = ImageLoaded | ImageFailed

  /** What `load()` leaves behind: the frame, and whether the promise it
      returned has been resolved. */
  datatype LoadResult = LoadResult(frame: Frame, resolved: bool)

  /** The constructor: a frame starts unloaded, holding its URL. */
  function New(url: string): (f: Frame)
    ensures f.url == url
    ensures !f.loaded
  {
    Frame(url, false)
  }

  /** `load()` together with the image's fate. Only `onload` touches the
      frame, and it sets `loaded` before resolving the promise. */
  function Load(f: Frame, outcome: ImageOutcome): (r: LoadResult)
    ensures r.resolved ==> r.frame.loaded
    ensures r.frame.url == f.url
    ensures f.loaded ==> r.frame.loaded
    ensures outcome == ImageFailed ==> r == LoadResult(f, false)
    ensures outcome == ImageLoaded ==> r.resolved
  {
    match outcome
    case ImageLoaded => LoadResult(f.(loaded := true), true)
    case ImageFailed => LoadResult(f, false)
  }

  function GetUrl(f: Frame): string { f.url }

  function IsLoaded(f: Frame): bool { f.loaded }

  /** A frame after a series of `load()` calls with the given outcomes. */
  function LoadAll(f: Frame, outcomes: seq<ImageOutcome>): Frame
    decreases |outcomes|
  {
    if |outcomes| == 0 then f else LoadAll(Load(f, outcomes[0]).frame, outcomes[1..])
  }

  /** Whatever happens to a frame's fetches, `getUrl()` still returns the
      URL it was built with, and `isLoaded()` holds exactly when it held
      already or one of the images arrived: `loaded` only moves from false
      to true, and a failed image leaves it alone. */
  lemma {:induction false} LoadHistory(f: Frame, outcomes: seq<ImageOutcome>)
    ensures GetUrl(LoadAll(f, outcomes)) == GetUrl(f)
    ensures IsLoaded(LoadAll(f, outcomes)) <==> IsLoaded(f) || ImageLoaded in outcomes
    decreases |outcomes|
  {
    if |outcomes| > 0 {
      var g := Load(f, outcomes[0]).frame;
      LoadHistory(g, outcomes[1..]);
      assert outcomes == [outcomes[0]] + outcomes[1..];
    }
  }

  /** A freshly built frame keeps its URL forever and is loaded only once
      an image has actually arrived. */
  lemma NewFrameHistory(url: string, outcomes: seq<ImageOutcome>)
    ensures GetUrl(LoadAll(New(url), outcomes)) == url
    ensures IsLoaded(LoadAll(New(url), outcomes)) <==> ImageLoaded in outcomes
  {
    LoadHistory(New(url), outcomes);
  }
}

=== FILE: frame_list.dfy ===
/** The frame array of the player: `addFrame`, `addFrames`, `clearFrames`
    and `setFrames`. None of them checks `ready`, fires an event or touches
    the playhead. */
module FrameList {
  import opened FrameModel
  import opened PlayerModel

  /** `q` is `p` with `urls` appended as fresh frames: the old frames are
      kept as they were and each new one is unloaded and carries its URL. */
  ghost predicate Appended(p: Player, q: Player, urls: seq<string>) {
    && |q.frames| == |p.frames| + |urls|
    && q.frames[..|p.frames|] == p.frames
    && (forall i :: 0 <= i < |urls| ==> q.frames[|p.frames| + i] == New(urls[i]))
  }

  /** Everything but the frames and the loader state is as in `p`. */
  ghost predicate OnlyFramesChanged(p: Player, q: Player) {
    q == p.(frames := q.frames, loaderState := q.loaderState)
  }

  /** `addFrame(url)`: append one unloaded frame and force the loader back
      to STOPPED, since the new frame still needs loading. */
  function AddFrame(p: Player, url: string): (q: Player)
    ensures Appended(p, q, [url])
    ensures q.frames[|p.frames|].url == url && !q.frames[|p.frames|].loaded
    ensures q.loaderState == LoaderStopped
    ensures OnlyFramesChanged(p, q)
  {
    p.(frames := p.frames + [New(url)], loaderState := LoaderStopped)
  }

  /** `addFrames(urls)`: `addFrame` for each URL in order. With no URL the
      loader state is left alone. */
  function AddFrames(p: Player, urls: seq<string>): (q: Player)
    ensures Appended(p, q, urls)
    ensures q.loaderState == if |urls| == 0 then p.loaderState else LoaderStopped
    ensures OnlyFramesChanged(p, q)
    decreases |urls|
  {
    if |urls| == 0 then p
    else
      var r := AddFrame(p, urls[0]);
      var q := AddFrames(r, urls[1..]);
      assert forall i :: 1 <= i < |urls| ==> urls[i] == urls[1..][i - 1];
      assert q.frames[..|r.frames|] == r.frames;
      assert q.frames[..|p.frames|] == r.frames[..|p.frames|];
      q
  }

  /** `clearFrames()`: start a new, empty frame array. The load progress,
      the playhead and both state axes are left as they were. */
  function ClearFrames(p: Player): (q: Player)
    ensures |q.frames| == 0
    ensures q.generation == p.generation + 1
    ensures q.lastFrameLoaded == p.lastFrameLoaded && q.currentFrame == p.currentFrame
    ensures q.loaderState == p.loaderState && q.playerState == p.playerState
    ensures q == p.(frames := [], generation := q.generation)
  {
    p.(frames := [], generation := p.generation + 1)
  }

  /** `setFrames(urls)`: clear, then append. Afterwards there are exactly
      `|urls|` frames, all unloaded, in order; `lastFrameLoaded` survives. */
  function SetFrames(p: Player, urls: seq<string>): (q: Player)
    ensures GetNumFrames(q) == |urls|
    ensures forall i :: 0 <= i < |urls| ==> q.frames[i].url == urls[i] && !q.frames[i].loaded
    ensures q.generation == p.generation + 1
    ensures q.lastFrameLoaded == p.lastFrameLoaded && q.currentFrame == p.currentFrame
    ensures q.loaderState == if |urls| == 0 then p.loaderState else LoaderStopped
    ensures q == p.(frames := q.frames, generation := q.generation, loaderState := q.loaderState)
  {
    var c := ClearFrames(p);
    var q := AddFrames(c, urls);
    assert forall i :: 0 <= i < |urls| ==> q.frames[i] == q.frames[|c.frames| + i];
    q
  }
}

=== FILE: loader.dfy ===
/** The loader (`load`, `doLoad`, the completion callback of a frame fetch,
    `loadStop`): it fetches frames one after another, each fetch started from
    inside the previous one's completion. */
module Loader {
  import opened Nullable
  import opened FrameModel
  import opened PlayerModel

  /** The first unloaded frame at or after `i`. */
  function FirstUnloadedFrom(frames: seq<Frame>, i: nat): (r: Option<nat>)
    requires i <= |frames|
    ensures r.Some? ==> i <= r.value < |frames| && !frames[r.value].loaded
    ensures r.Some? ==> forall j :: i <= j < r.value ==> frames[j].loaded
    ensures r.None? <==> forall j :: i <= j < |frames| ==> frames[j].loaded
    decreases |frames| - i
  {
    if i == |frames| then None
    else if !frames[i].loaded then Some(i)
    else FirstUnloadedFrom(frames, i + 1)
  }

  /** The scan `load()` performs when no frame has completed yet: a forward
      loop that breaks at the first frame whose `isLoaded()` is false. */
  method FindFirstUnloaded(frames: seq<Frame>) returns (start: Option<nat>)
    ensures start == FirstUnloadedFrom(frames, 0)
    ensures start.Some? ==> start.value < |frames| && !frames[start.value].loaded
    ensures start.None? ==> forall j :: 0 <= j < |frames| ==> frames[j].loaded
  {
    start := None;
    var i := 0;
    while i < |frames|
      invariant 0 <= i <= |frames|
      invariant forall j :: 0 <= j < i ==> frames[j].loaded
      invariant FirstUnloadedFrom(frames, i) == FirstUnloadedFrom(frames, 0)
    {
      if !frames[i].loaded {
        start := Some(i);
        return;
      }
      i := i + 1;
    }
  }

  /** Where `load()` starts: the first unloaded frame when nothing has
      completed yet, otherwise the frame after the last one completed, if
      there is such a frame. */
  function ResumePoint(p: Player): (r: Option<nat>)
    ensures r.Some? ==> r.value < |p.frames|
    ensures p.lastFrameLoaded.None? ==>
      (r.Some? ==> !p.frames[r.value].loaded
                   && forall j :: 0 <= j < r.value ==> p.frames[j].loaded)
      && (r.None? <==> forall j :: 0 <= j < |p.frames| ==> p.frames[j].loaded)
    ensures p.lastFrameLoaded.Some? ==>
      (r.Some? <==> FrameExists(p, p.lastFrameLoaded.value + 1))
      && (r.Some? ==> r.value == p.lastFrameLoaded.value + 1)
  {
    match p.lastFrameLoaded
    case None => FirstUnloadedFrom(p.frames, 0)
    case Some(last) => if FrameExists(p, last + 1) then Some(last + 1) else None
  }

  /** The `onLoadProgress` count: frames loaded so far, reading `null` as 0. */
  function ProgressEvent(p: Player): Event {
    OnLoadProgress(p.lastFrameLoaded.GetOr(0) + 1, |p.frames|)
  }

  /** `doLoad(k)`: report progress and start fetching frame `k`. */
  function DoLoad(p: Player, k: nat): (o: Out)
    requires k < |p.frames|
    ensures o.player == p.(fetches := p.fetches + [Fetch(p.generation, k)])
    ensures o.events == [ProgressEvent(p)]
  {
    Out(p.(fetches := p.fetches + [Fetch(p.generation, k)]), [ProgressEvent(p)])
  }

  /** `load()`: only a ready player with a stopped loader and some frame to
      resume from starts loading; it then fires `onLoadStart` and fetches the
      resume point. */
  function Load(p: Player): (o: Out)
    ensures !p.ready || p.loaderState != LoaderStopped || ResumePoint(p).None? ==>
      o == Out(p, [])
    ensures p.ready && p.loaderState == LoaderStopped && ResumePoint(p).Some? ==>
      && o.player == p.(loaderState := Loading,
                        fetches := p.fetches + [Fetch(p.generation, ResumePoint(p).value)])
      && o.events == [OnLoadStart, ProgressEvent(p)]
  {
    if !p.ready || p.loaderState != LoaderStopped then Out(p, [])
    else
      match ResumePoint(p)
      case None => Out(p, [])
      case Some(k) =>
        var o := DoLoad(p.(loaderState := Loading), k);
        Out(o.player, [OnLoadStart] + o.events)
  }

  /** The frame array after the image of fetch `f` arrives. The frame object
      is updated; it is only visible in the array when the array has not been
      replaced since the fetch started. */
  function MarkLoaded(p: Player, f: Fetch): (frames: seq<Frame>)
    ensures |frames| == |p.frames|
    ensures forall i :: 0 <= i < |frames| ==> frames[i].url == p.frames[i].url
    ensures forall i :: 0 <= i < |frames| ==>
      (frames[i].loaded <==> p.frames[i].loaded
                             || (i == f.index && f.generation == p.generation))
  {
    if f.generation == p.generation && f.index < |p.frames| then
      p.frames[f.index := FrameModel.Load(p.frames[f.index], ImageLoaded).frame]
    else
      p.frames
  }

  /** The fetches still in flight once fetch `j` has settled. */
  function Without(fetches: seq<Fetch>, j: nat): (r: seq<Fetch>)
    requires j < |fetches|
    ensures |r| == |fetches| - 1
    ensures forall f :: f in r ==> f in fetches
  {
    fetches[..j] + fetches[j + 1..]
  }

  /** The first half of the `.done` callback of fetch `j`, common to every
      loader state: the image is marked loaded and its index recorded. */
  function Settle(p: Player, j: nat): (q: Player)
    requires j < |p.fetches|
    ensures q.lastFrameLoaded == Some(p.fetches[j].index)
    ensures q.frames == MarkLoaded(p, p.fetches[j])
    ensures q.fetches == Without(p.fetches, j)
    ensures q.loaderState == p.loaderState
    ensures SamePlayback(p, q)
  {
    p.(frames := MarkLoaded(p, p.fetches[j]),
       fetches := Without(p.fetches, j),
       lastFrameLoaded := Some(p.fetches[j].index))
  }

  /** The `.done` callback of fetch `j` (its image loaded). It always records
      the fetched index as `lastFrameLoaded`; only while the loader is still
      LOADING does it chain a fetch of the next index, or declare the load
      complete when no next frame exists. */
  function FetchDone(p: Player, j: nat): (o: Out)
    requires j < |p.fetches|
    ensures o.player.lastFrameLoaded == Some(p.fetches[j].index)
    ensures o.player.frames == MarkLoaded(p, p.fetches[j])
    ensures |o.events| > 0 && o.events[0] == OnLoadProgress(p.fetches[j].index + 1, |p.frames|)
    ensures SamePlayback(p, o.player)
    ensures p.loaderState != Loading ==>
      && o.player.loaderState == p.loaderState
      && o.player.fetches == Without(p.fetches, j)
      && |o.events| == 1
    ensures p.loaderState == Loading && FrameExists(p, p.fetches[j].index + 1) ==>
      && o.player.loaderState == Loading
      && o.player.fetches == Without(p.fetches, j) + [Fetch(p.generation, p.fetches[j].index + 1)]
      && o.events == [OnLoadProgress(p.fetches[j].index + 1, |p.frames|),
                      OnLoadProgress(p.fetches[j].index + 1, |p.frames|)]
    ensures p.loaderState == Loading && !FrameExists(p, p.fetches[j].index + 1) ==>
      && o.player.loaderState == Complete
      && o.player.fetches == Without(p.fetches, j)
      && o.events == [o.events[0], OnLoadComplete]
  {
    var q := Settle(p, j);
    var k := p.fetches[j].index;
    var progress := [ProgressEvent(q)];
    if q.loaderState == Loading then
      if FrameExists(q, k + 1) then
        var o := DoLoad(q, k + 1);
        Out(o.player, progress + o.events)
      else
        Out(q.(loaderState := Complete), progress + [OnLoadComplete])
    else
      Out(q, progress)
  }

  /** `loadStop()`: a LOADING loader stops and fires `onLoadStop`; a stopped
      or complete one is left alone. Fetches in flight are not cancelled. */
  function LoadStop(p: Player): (o: Out)
    ensures p.loaderState == Loading ==>
      o.player == p.(loaderState := LoaderStopped) && o.events == [OnLoadStop]
    ensures p.loaderState != Loading ==> o == Out(p, [])
  {
    if p.loaderState == Loading then Out(p.(loaderState := LoaderStopped), [OnLoadStop])
    else Out(p, [])
  }
}

=== FILE: nullable.dfy ===
/** JavaScript values that may be `null`, as the player uses them for its
    frame indices (`currentFrame`, `lastFrameLoaded`). */
module Nullable {

  /** `None` stands for `null`. */
  datatype Option<+T> = None | Some(value: T) {

    /** The value, or `default` for `null`: the player's `x || 0` idiom.
        For an index `x || 0` and "`null` counts as 0" agree, since `0 || 0` is 0. */
    function GetOr(default: T): (r: T)
      ensures Some? ==> r == value
      ensures None? ==> r == default
    {
      match this
      case Some(v) => v
      case None => default
    }
  }
}

=== FILE: playback.dfy ===
/** The playback side of the player: `play`, `doPlay` and the body of the
    frame-advance timeout it schedules, `buffer`, `doBuffer` and its poll,
    and `stop`. */
module Playback {
  import opened Nullable
  import opened FrameModel
  import opened PlayerModel
  import BufferPolicy
  import Loader

  /** Entering frame `n`: the generic hook, the per-index hook when one is
      configured, then the render when the frame exists. */
  function EnterEvents(c: Config, frames: seq<Frame>, n: int): (evs: seq<Event>)
    ensures |evs| > 0 && evs[0] == OnEnterFrame(n)
    ensures OnEnterFrameAt(n) in evs <==> n in c.enterHooks
    ensures 0 <= n < |frames| ==> Render(n, frames[n].url) in evs
    ensures forall e :: e in evs && e.Render? ==> e.index == n < |frames|
    ensures OnLoop !in evs
  {
    [OnEnterFrame(n)]
    + (if n in c.enterHooks then [OnEnterFrameAt(n)] else [])
    + (if 0 <= n < |frames| then [Render(n, frames[n].url)] else [])
  }

  /** Leaving the frame `current`: the generic hook receives the raw (possibly
      `null`) playhead; a per-index hook can only match a number. */
  function ExitEvents(c: Config, current: Option<int>): (evs: seq<Event>)
    ensures |evs| > 0 && evs[0] == OnExitFrame(current)
    ensures forall n :: OnExitFrameAt(n) in evs <==> current == Some(n) && n in c.exitHooks
    ensures forall e :: e in evs ==> e.OnExitFrame? || e.OnExitFrameAt?
  {
    [OnExitFrame(current)]
    + (match current
       case Some(n) => if n in c.exitHooks then [OnExitFrameAt(n)] else []
       case None => [])
  }

  /** `doPlay()`: unless stopped, enter the current frame (0 when `null`)
      and schedule the advance, replacing any advance already scheduled. */
  function DoPlay(p: Player): (o: Out)
    ensures p.playerState == PlayerStopped ==> o == Out(p, [])
    ensures p.playerState != PlayerStopped ==>
      && o.player.currentFrame == Some(p.currentFrame.GetOr(0))
      && o.player.tickPending
      && o.player.playerState == p.playerState
      && o.player.loaderState == p.loaderState
      && o.player.pendingPolls == p.pendingPolls
      && o.events == EnterEvents(p.config, p.frames, p.currentFrame.GetOr(0))
    ensures SameStore(p, o.player)
  {
    if p.playerState != PlayerStopped then
      var n := p.currentFrame.GetOr(0);
      Out(p.(currentFrame := Some(n), tickPending := true), EnterEvents(p.config, p.frames, n))
    else
      Out(p, [])
  }

  /** `doBuffer()`: while not stopped, either schedule another poll (the
      buffer is still short) or return to PLAYING, fire `onBufferStop` and
      enter the current frame. A stopped player only fires `onBufferStop`. */
  function DoBuffer(p: Player): (o: Out)
    ensures p.playerState == PlayerStopped ==> o == Out(p, [OnBufferStop])
    ensures p.playerState != PlayerStopped && BufferPolicy.RequiresBuffer(p) ==>
      o == Out(p.(pendingPolls := p.pendingPolls + 1), [])
    ensures p.playerState != PlayerStopped && !BufferPolicy.RequiresBuffer(p) ==>
      && o.player.playerState == Playing
      && o.player.tickPending
      && o.player.currentFrame == Some(p.currentFrame.GetOr(0))
      && o.player.pendingPolls == p.pendingPolls
      && o.events == [OnBufferStop] + EnterEvents(p.config, p.frames, p.currentFrame.GetOr(0))
    ensures o.player.loaderState == p.loaderState
    ensures p.currentFrame.Some? ==> o.player.currentFrame == p.currentFrame
    ensures SameStore(p, o.player)
  {
    if p.playerState != PlayerStopped then
      if BufferPolicy.RequiresBuffer(p) then
        Out(p.(pendingPolls := p.pendingPolls + 1), [])
      else
        var o := DoPlay(p.(playerState := Playing));
        Out(o.player, [OnBufferStop] + o.events)
    else
      Out(p, [OnBufferStop])
  }

  /** `buffer()`: enter BUFFERING whatever the current state, fire
      `onBufferStart` and check the buffer at once. The player stays
      BUFFERING exactly when the buffer is short. */
  function Buffer(p: Player): (o: Out)
    ensures |o.events| > 0 && o.events[0] == OnBufferStart
    ensures o.player.playerState == (if BufferPolicy.RequiresBuffer(p) then Buffering else Playing)
    ensures BufferPolicy.RequiresBuffer(p) ==>
      o.player == p.(playerState := Buffering, pendingPolls := p.pendingPolls + 1)
      && o.events == [OnBufferStart]
    ensures !BufferPolicy.RequiresBuffer(p) ==>
      o.events == [OnBufferStart] + ([OnBufferStop] + EnterEvents(p.config, p.frames, p.currentFrame.GetOr(0)))
      && o.player.tickPending
    ensures o.player.loaderState == p.loaderState
    ensures p.currentFrame.Some? ==> o.player.currentFrame == p.currentFrame
    ensures SameStore(p, o.player)
  {
    var o := DoBuffer(p.(playerState := Buffering));
    Out(o.player, [OnBufferStart] + o.events)
  }

  /** A scheduled `doBuffer` poll fires. */
  function Poll(p: Player): (o: Out)
    requires p.pendingPolls > 0
    ensures p.playerState == PlayerStopped ==>
      o == Out(p.(pendingPolls := p.pendingPolls - 1), [OnBufferStop])
    ensures p.playerState != PlayerStopped && !BufferPolicy.RequiresBuffer(p) ==>
      && o.player.playerState == Playing
      && o.player.tickPending
      && o.player.currentFrame == Some(p.currentFrame.GetOr(0))
      && o.player.pendingPolls == p.pendingPolls - 1
      && o.events == [OnBufferStop] + EnterEvents(p.config, p.frames, p.currentFrame.GetOr(0))
    ensures p.playerState != PlayerStopped && BufferPolicy.RequiresBuffer(p) ==>
      o == Out(p, [])
    ensures o.player.loaderState == p.loaderState
    ensures SameStore(p, o.player)
  {
    DoBuffer(p.(pendingPolls := p.pendingPolls - 1))
  }

  /** `stop()`: a ready, non-stopped player stops, fires `onStop` and stops a
      LOADING loader. The scheduled advance is NOT cancelled. */
  function Stop(p: Player): (o: Out)
    ensures !p.ready || p.playerState == PlayerStopped ==> o == Out(p, [])
    ensures p.ready && p.playerState != PlayerStopped ==>
      && o.player.playerState == PlayerStopped
      && |o.events| > 0 && o.events[0] == OnStop
      && (p.loaderState == Loading ==>
            o.player.loaderState == LoaderStopped && o.events == [OnStop, OnLoadStop])
      && (p.loaderState != Loading ==>
            o.player.loaderState == p.loaderState && o.events == [OnStop])
    ensures o.player.tickPending == p.tickPending
    ensures o.player.currentFrame == p.currentFrame
    ensures o.player.pendingPolls == p.pendingPolls
    ensures OnLoop !in o.events
    ensures SameStore(p, o.player)
  {
    if p.ready && p.playerState != PlayerStopped then
      var o := Loader.LoadStop(p.(playerState := PlayerStopped));
      Out(o.player, [OnStop] + o.events)
    else
      Out(p, [])
  }

  /** `play()`: only a ready, stopped player with frames starts. It fires
      `onPlay`, starts the loader if it is stopped, and ends BUFFERING when
      the buffer is short and PLAYING (having entered the current frame)
      otherwise. */
  function Play(p: Player): (o: Out)
    ensures !p.ready || p.playerState != PlayerStopped || |p.frames| == 0 ==> o == Out(p, [])
    ensures p.ready && p.playerState == PlayerStopped && |p.frames| > 0 ==>
      |o.events| > 0 && o.events[0] == OnPlay && o.player.playerState != PlayerStopped
    ensures o.player.frames == p.frames && o.player.generation == p.generation
    ensures o.player.lastFrameLoaded == p.lastFrameLoaded
  {
    if !p.ready || p.playerState != PlayerStopped || |p.frames| == 0 then
      Out(p, [])
    else
      var q := p.(playerState := Playing);
      var l := if q.loaderState == LoaderStopped then Loader.Load(q) else Out(q, []);
      assert BufferPolicy.RequiresBuffer(l.player) == BufferPolicy.RequiresBuffer(p);
      var r := if !BufferPolicy.RequiresBuffer(l.player) then DoPlay(l.player) else Buffer(l.player);
      Out(r.player, [OnPlay] + l.events + r.events)
  }

  /** The timeout body once a next frame `n + 1` exists: move onto it, then
      buffer if it is not loaded yet, otherwise enter it. */
  function Advance(p: Player, n: int): (o: Out)
    requires FrameExists(p, n + 1)
    ensures o.player.currentFrame == Some(n + 1)
    ensures !p.frames[n + 1].loaded ==>
      && |o.events| > 0 && o.events[0] == OnBufferStart
      && o.player.playerState
         == (if BufferPolicy.RequiresBuffer(p.(currentFrame := Some(n + 1))) then Buffering
             else Playing)
    ensures !p.frames[n + 1].loaded && !BufferPolicy.RequiresBuffer(p.(currentFrame := Some(n + 1))) ==>
      && o.events == [OnBufferStart, OnBufferStop] + EnterEvents(p.config, p.frames, n + 1)
      && o.player.tickPending
    ensures p.frames[n + 1].loaded && p.playerState != PlayerStopped ==>
      && o.events == EnterEvents(p.config, p.frames, n + 1)
      && o.player.playerState == p.playerState
      && o.player.tickPending
    ensures p.frames[n + 1].loaded && p.playerState == PlayerStopped ==>
      o.events == [] && o.player.tickPending == p.tickPending
      && o.player.playerState == PlayerStopped
    ensures OnLoop !in o.events
    ensures o.player.loaderState == p.loaderState
    ensures SameStore(p, o.player)
  {
    var r := p.(currentFrame := Some(n + 1));
    if !p.frames[n + 1].loaded then Buffer(r) else DoPlay(r)
  }

  /** The timeout body when no next frame exists: the playhead returns to 0,
      then the player loops (firing `onLoop`) or stops. */
  function Wrap(p: Player): (o: Out)
    ensures o.player.currentFrame == Some(0)
    ensures !p.config.loop ==> OnLoop !in o.events
    ensures p.config.loop ==>
      && |o.events| > 0 && o.events[0] == OnLoop && OnLoop !in o.events[1..]
      && o.player.playerState == p.playerState
      && (p.playerState != PlayerStopped ==> o.player.tickPending)
    ensures p.config.loop && p.playerState != PlayerStopped ==>
      o.events == [OnLoop] + EnterEvents(p.config, p.frames, 0)
    ensures p.config.loop && p.playerState == PlayerStopped ==> o.events == [OnLoop]
    ensures !p.config.loop ==>
      && o.player.playerState == (if p.ready then PlayerStopped else p.playerState)
      && o.player.tickPending == p.tickPending
      && (p.ready && p.playerState != PlayerStopped ==> |o.events| > 0 && o.events[0] == OnStop)
    ensures o.player.loaderState == p.loaderState || o.player.loaderState == LoaderStopped
    ensures SameStore(p, o.player)
  {
    var r := p.(currentFrame := Some(0));
    if p.config.loop then
      var o := DoPlay(r);
      Out(o.player, [OnLoop] + o.events)
    else
      Stop(r)
  }

  /** The body of the frame-advance timeout. The exit hooks fire first. With
      a next frame the playhead moves onto it and the player buffers if that
      frame is not loaded yet, or enters it. At the last frame (or from an
      index with no successor) the playhead goes back to 0 and the player
      loops or stops. The body runs whatever the player state, since `stop()`
      leaves the timeout in place. */
  function Tick(p: Player): (o: Out)
    requires p.tickPending
    ensures var exit := ExitEvents(p.config, p.currentFrame);
      |o.events| >= |exit| && o.events[..|exit|] == exit
    ensures var n := p.currentFrame.GetOr(0);
      o.player.currentFrame == Some(if FrameExists(p, n + 1) then n + 1 else 0)
    ensures p.currentFrame.Some? && FrameExists(p, p.currentFrame.value) ==>
      o.player.currentFrame.Some? && FrameExists(o.player, o.player.currentFrame.value)
    ensures o.player.loaderState == p.loaderState || o.player.loaderState == LoaderStopped
    ensures SameStore(p, o.player)
  {
    var n := p.currentFrame.GetOr(0);
    var q := p.(tickPending := false);
    var exit := ExitEvents(p.config, p.currentFrame);
    var o := if FrameExists(q, n + 1) then Advance(q, n) else Wrap(q);
    Out(o.player, exit + o.events)
  }

  /** `play()` from a ready, stopped player with frames: it fires `onPlay`,
      starts the loader from its resume point if the loader is stopped, and
      ends BUFFERING (after `onBufferStart`) exactly when the buffer is short,
      otherwise PLAYING with the current frame entered. Starting the loader
      cannot change the verdict, since a stopped loader only moves to LOADING. */
  lemma PlayStarts(p: Player)
    requires p.ready && p.playerState == PlayerStopped && |p.frames| > 0
    ensures var o := Play(p);
      && o.player.playerState == (if BufferPolicy.RequiresBuffer(p) then Buffering else Playing)
      && (OnBufferStart in o.events <==> BufferPolicy.RequiresBuffer(p))
      && (!BufferPolicy.RequiresBuffer(p) ==>
            o.player.tickPending && OnEnterFrame(p.currentFrame.GetOr(0)) in o.events)
      && (p.loaderState == LoaderStopped && Loader.ResumePoint(p).Some? ==>
            && o.player.loaderState == Loading && OnLoadStart in o.events
            && o.player.fetches == p.fetches + [Fetch(p.generation, Loader.ResumePoint(p).value)])
      && (p.loaderState != LoaderStopped || Loader.ResumePoint(p).None? ==>
            && o.player.loaderState == p.loaderState && o.player.fetches == p.fetches
            && OnLoadStart !in o.events)
  {
    var q := p.(playerState := Playing);
    var l := if q.loaderState == LoaderStopped then Loader.Load(q) else Out(q, []);
    assert Loader.ResumePoint(q) == Loader.ResumePoint(p);
    assert BufferPolicy.RequiresBuffer(l.player) == BufferPolicy.RequiresBuffer(p);
    var r := if !BufferPolicy.RequiresBuffer(l.player) then DoPlay(l.player) else Buffer(l.player);
    assert Play(p) == Out(r.player, [OnPlay] + l.events + r.events);
    assert OnLoadStart !in r.events;
    assert OnBufferStart !in l.events;
    if !BufferPolicy.RequiresBuffer(p) {
      assert OnBufferStart !in r.events;
      assert r.events[0] == OnEnterFrame(l.player.currentFrame.GetOr(0));
    }
  }

  /** The timeout body when the playhead `n` has a successor: the exit hooks
      fire, then the playhead moves to `n + 1`. An unloaded frame starts
      buffering (staying BUFFERING exactly when the buffer is short); a loaded
      one is entered, unless the player was stopped, in which case nothing
      more happens. `onLoop` does not fire. */
  lemma TickMovesOn(p: Player)
    requires p.tickPending && FrameExists(p, p.currentFrame.GetOr(0) + 1)
    ensures var n := p.currentFrame.GetOr(0); var o := Tick(p);
      var exit := ExitEvents(p.config, p.currentFrame);
      && o.player.currentFrame == Some(n + 1)
      && OnLoop !in o.events
      && (!p.frames[n + 1].loaded ==>
            && |o.events| > |exit| && o.events[|exit|] == OnBufferStart
            && o.player.playerState
               == (if BufferPolicy.RequiresBuffer(p.(currentFrame := Some(n + 1))) then Buffering
                   else Playing))
      && (!p.frames[n + 1].loaded && !BufferPolicy.RequiresBuffer(p.(currentFrame := Some(n + 1))) ==>
            && o.events == exit + ([OnBufferStart, OnBufferStop] + EnterEvents(p.config, p.frames, n + 1))
            && o.player.tickPending)
      && (p.frames[n + 1].loaded && p.playerState != PlayerStopped ==>
            && o.events == exit + EnterEvents(p.config, p.frames, n + 1)
            && o.player.playerState == p.playerState
            && o.player.tickPending)
      && (p.frames[n + 1].loaded && p.playerState == PlayerStopped ==>
            && o.events == exit && !o.player.tickPending
            && o.player.playerState == PlayerStopped)
  {
    var n := p.currentFrame.GetOr(0);
    var q := p.(tickPending := false);
    var a := Advance(q, n);
    assert Tick(p) == Out(a.player, ExitEvents(p.config, p.currentFrame) + a.events);
    assert q.(currentFrame := Some(n + 1)) == p.(currentFrame := Some(n + 1), tickPending := false);
    assert BufferPolicy.RequiresBuffer(q.(currentFrame := Some(n + 1)))
        == BufferPolicy.RequiresBuffer(p.(currentFrame := Some(n + 1)));
  }

  /** The timeout body when the playhead has no successor: the exit hooks
      fire, the playhead goes back to 0, and `onLoop` fires exactly once and
      play continues when looping; otherwise the player stops (firing `onStop`
      if it was running) and no advance stays scheduled. */
  lemma TickAtEnd(p: Player)
    requires p.tickPending && !FrameExists(p, p.currentFrame.GetOr(0) + 1)
    ensures var o := Tick(p); var exit := ExitEvents(p.config, p.currentFrame);
      && o.player.currentFrame == Some(0)
      && (!p.config.loop ==> OnLoop !in o.events)
      && (p.config.loop ==>
            && |o.events| > |exit| && o.events[|exit|] == OnLoop
            && OnLoop !in o.events[..|exit|] && OnLoop !in o.events[|exit| + 1..]
            && o.player.playerState == p.playerState
            && (p.playerState != PlayerStopped ==> o.player.tickPending))
      && (p.config.loop && p.playerState != PlayerStopped ==>
            o.events == exit + ([OnLoop] + EnterEvents(p.config, p.frames, 0)))
      && (p.config.loop && p.playerState == PlayerStopped ==> o.events == exit + [OnLoop])
      && (!p.config.loop ==>
            && o.player.playerState == (if p.ready then PlayerStopped else p.playerState)
            && !o.player.tickPending
            && (p.ready && p.playerState != PlayerStopped ==>
                  |o.events| > |exit| && o.events[|exit|] == OnStop))
  {
    var q := p.(tickPending := false);
    var w := Wrap(q);
    assert Tick(p) == Out(w.player, ExitEvents(p.config, p.currentFrame) + w.events);
    if p.config.loop {
      assert Tick(p).events[|ExitEvents(p.config, p.currentFrame)| + 1..] == w.events[1..];
    }
  }
}

=== FILE: player_api.dfy ===
/** The rest of the public surface of the player (`goToFrame`, `reset`, the
    constructor), and one step of the player driven by either a public call or
    one of the three asynchronous resumptions. */
module PlayerApi {
  import opened Nullable
  import opened PlayerModel
  import Loader
  import Playback
  import FrameList

  /** `goToFrame(n)`: a ready player stores `n` as the playhead whether or not
      such a frame exists, and renders it only if it does. Neither state axis
      nor the scheduled advance is touched. */
  function GoToFrame(p: Player, n: int): (o: Out)
    ensures !p.ready ==> o == Out(p, [])
    ensures p.ready ==> o.player == p.(currentFrame := Some(n))
    ensures p.ready && FrameExists(p, n) ==> o.events == [Render(n, p.frames[n].url)]
    ensures p.ready && !FrameExists(p, n) ==> o.events == []
  {
    if p.ready then
      Out(p.(currentFrame := Some(n)),
          if FrameExists(p, n) then [Render(n, p.frames[n].url)] else [])
    else
      Out(p, [])
  }

  /** `reset(clear)`: stop, then either discard the frames, the playhead and
      the load progress, or move the playhead to 0; finally fire `onReset`
      and `onReady`. The loader state is never reset: a COMPLETE loader stays
      COMPLETE, and a loader left LOADING by a stopped player stays LOADING. */
  function Reset(p: Player, clear: bool): (o: Out)
    ensures var stop := Playback.Stop(p);
      && o.events == stop.events + [OnReset, OnReady]
      && o.player.playerState == (if p.ready then PlayerStopped else p.playerState)
      && o.player.loaderState == stop.player.loaderState
      && o.player.tickPending == p.tickPending
    ensures p.playerState == PlayerStopped ==> o.player.loaderState == p.loaderState
    ensures clear ==>
      && |o.player.frames| == 0 && o.player.generation == p.generation + 1
      && o.player.currentFrame == None && o.player.lastFrameLoaded == None
    ensures !clear ==>
      && o.player.frames == p.frames && o.player.generation == p.generation
      && o.player.currentFrame == Some(0) && o.player.lastFrameLoaded == p.lastFrameLoaded
    ensures o.player.fetches == p.fetches
  {
    var s := Playback.Stop(p);
    var q := if clear then
               s.player.(currentFrame := None, lastFrameLoaded := None, frames := [],
                         generation := s.player.generation + 1)
             else
               s.player.(currentFrame := Some(0));
    Out(q, s.events + [OnReset, OnReady])
  }

  /** The constructor: install the configured frames (if any), become ready
      and STOPPED, fire `onReady`, then auto-play, or else auto-load, when
      there are frames. */
  function Construct(config: Config, urls: seq<string>): (o: Out)
    ensures o.player.ready
    ensures GetNumFrames(o.player) == |urls|
    ensures forall i :: 0 <= i < |urls| ==> o.player.frames[i].url == urls[i]
    ensures |o.events| > 0 && o.events[0] == OnReady
    ensures (|urls| == 0 || !config.autoPlay) ==> o.player.playerState == PlayerStopped
    ensures |urls| > 0 && config.autoPlay ==> o.player.playerState != PlayerStopped
    ensures |urls| == 0 || (!config.autoPlay && !config.autoLoad) ==>
      o.player.loaderState == LoaderStopped && o.player.fetches == []
    ensures |urls| > 0 && !config.autoPlay && config.autoLoad ==>
      && o.player.loaderState == Loading
      && o.player.fetches == [Fetch(o.player.generation, 0)]
      && |o.events| >= 2 && o.events[..2] == [OnReady, OnLoadStart]
  {
    var p0 := Initial(config);
    var p1 := if |urls| > 0 then FrameList.SetFrames(p0, urls) else p0;
    var p2 := p1.(ready := true, playerState := PlayerStopped);
    if |p2.frames| > 0 && config.autoPlay then
      var o := Playback.Play(p2);
      Out(o.player, [OnReady] + o.events)
    else if |p2.frames| > 0 && config.autoLoad then
      var o := Loader.Load(p2);
      Out(o.player, [OnReady] + o.events)
    else
      Out(p2, [OnReady])
  }

  /** Everything that can happen to a player: a public call, or one of the
      three asynchronous resumptions (the advance timeout firing, a buffer
      poll firing, the image of the `j`-th fetch in flight arriving). A failed
      image has no input: its fetch simply never completes. */
  datatype Input =
    | CallPlay
    | CallStop
    | CallLoad
    | CallLoadStop
    | CallAddFrame(url: string)
    | CallAddFrames(urls: seq<string>)
    | CallSetFrames(urls: seq<string>)
    | CallClearFrames
    | CallGoToFrame(frame: int)
    | CallReset(clear: bool)
    | TimerFires
    | PollFires
    | ImageArrives(j: nat)

  /** A resumption that has nothing to resume (no timeout, no poll, no such
      fetch) cannot happen; it leaves the player unchanged. */
  predicate Enabled(p: Player, i: Input) {
    match i
    case TimerFires => p.tickPending
    case PollFires => p.pendingPolls > 0
    case ImageArrives(j) => j < |p.fetches|
    case _ => true
  }

  function Step(p: Player, i: Input): Out {
    if !Enabled(p, i) then Out(p, [])
    else
      match i
      case CallPlay => Playback.Play(p)
      case CallStop => Playback.Stop(p)
      case CallLoad => Loader.Load(p)
      case CallLoadStop => Loader.LoadStop(p)
      case CallAddFrame(url) => Out(FrameList.AddFrame(p, url), [])
      case CallAddFrames(urls) => Out(FrameList.AddFrames(p, urls), [])
      case CallSetFrames(urls) => Out(FrameList.SetFrames(p, urls), [])
      case CallClearFrames => Out(FrameList.ClearFrames(p), [])
      case CallGoToFrame(n) => GoToFrame(p, n)
      case CallReset(clear) => Reset(p, clear)
      case TimerFires => Playback.Tick(p)
      case PollFires => Playback.Poll(p)
      case ImageArrives(j) => Loader.FetchDone(p, j)
  }

  /** A run: the inputs applied one after another, with all events fired. */
  function Run(p: Player, inputs: seq<Input>): Out
    decreases |inputs|
  {
    if |inputs| == 0 then Out(p, [])
    else
      var first := Step(p, inputs[0]);
      var rest := Run(first.player, inputs[1..]);
      Out(rest.player, first.events + rest.events)
  }
}

=== FILE: player_model.dfy ===
/** The state record of one player instance (`src/player.js`), the events it
    fires, and the invariant every reachable state keeps. */
module PlayerModel {
  import opened Nullable
  import opened FrameModel

  datatype PlayerState = PlayerStopped | Playing | Buffering

  datatype LoaderState = LoaderStopped | Loading | Complete

  /** The `bufferSize` option as `requiresBuffer` reads it. */
  datatype BufferSize =
    | Percent(percent: int)  // a string ending in '%', such as the default "30%"
    | Frames(count: int)     // anything else that `parseInt` reads as a number
    | Unparsable             // `parseInt` gives NaN, and `x < NaN` is false

  /** The options the state machine consults. `enterHooks`/`exitHooks` are
      the indices `n` for which an `onEnterFrame<n>`/`onExitFrame<n>` callback
      is configured. */
  datatype Config = Config(
    loop: bool,
    bufferSize: BufferSize,
    autoPlay: bool,
    autoLoad: bool,
    enterHooks: set<int>,
    exitHooks: set<int>)

  /** An image fetch started by `doLoad` whose `onload` has not fired yet.
      The frame it belongs to is the one at `index` in the frame array of
      generation `generation`; the array is replaced (and the generation
      bumped) by `clearFrames` and by `reset(true)`. */
  datatype Fetch = Fetch(generation: nat, index: nat)

  /** The callbacks the player calls, in order. `Render` stands for drawing a
      frame's URL on the canvas. */
  datatype Event =
    | OnReady
    | OnLoadStart
    | OnLoadStop
    | OnLoadProgress(framesLoaded: int, totalFrames: nat)
    | OnLoadComplete
    | OnPlay
    | OnBufferStart
    | OnBufferStop
    | OnStop
    | OnEnterFrame(frame: int)
    | OnEnterFrameAt(frame: int)       // the per-index hook `onEnterFrame<n>`
    | OnExitFrame(current: Option<int>)
    | OnExitFrameAt(frame: int)        // the per-index hook `onExitFrame<n>`
    | OnLoop
    | OnReset
    | Render(index: nat, url: string)

  /** The player record. `tickPending` is the frame-advance timeout held in
      `playerTimeout`; `pendingPolls` counts scheduled `doBuffer` polls;
      `fetches` are the images in flight. */
  datatype Player = Player(
    config: Config,
    ready: bool,
    frames: seq<Frame>,
    generation: nat,
    playerState: PlayerState,
    loaderState: LoaderState,
    currentFrame: Option<int>,
    lastFrameLoaded: Option<nat>,
    tickPending: bool,
    pendingPolls: nat,
    fetches: seq<Fetch>)

  /** The result of one call or callback: the new record and the events fired. */
  datatype Out = Out(player: Player, events: seq<Event>)

  /** The record as the constructor finds it, before `ready` is set. */
  function Initial(config: Config): (p: Player)
    ensures !p.ready && |p.frames| == 0
    ensures p.playerState == PlayerStopped && p.loaderState == LoaderStopped
    ensures p.currentFrame == None && p.lastFrameLoaded == None
  {
    Player(config, false, [], 0, PlayerStopped, LoaderStopped, None, None, false, 0, [])
  }

  /** `typeof base.frames[i] === 'object'`. */
  predicate FrameExists(p: Player, i: int) {
    0 <= i < |p.frames|
  }

  function GetPlayerState(p: Player): PlayerState { p.playerState }

  function GetLoaderState(p: Player): LoaderState { p.loaderState }

  function GetCurrentFrame(p: Player): Option<int> { p.currentFrame }

  function GetNumFrames(p: Player): nat { |p.frames| }

  /** What every reachable record satisfies: fetches never come from a future
      frame array, a fetch of the current array points into it, and the loader
      is never LOADING with nothing in flight. */
  ghost predicate Inv(p: Player) {
    && (forall f :: f in p.fetches ==> f.generation <= p.generation)
    && (forall f :: f in p.fetches && f.generation == p.generation ==> f.index < |p.frames|)
    && (p.loaderState == Loading ==> |p.fetches| > 0)
  }

  /** `q` differs from `p` at most in the two state axes, the playhead and the
      timers: frames, fetches and load progress are untouched. */
  ghost predicate SameStore(p: Player, q: Player) {
    && q.config == p.config
    && q.ready == p.ready
    && q.frames == p.frames
    && q.generation == p.generation
    && q.lastFrameLoaded == p.lastFrameLoaded
    && q.fetches == p.fetches
  }

  /** `q` differs from `p` at most in the loader's part of the record: the
      frames' load flags, the fetches, the load progress and the loader state.
      The playback axis, the playhead and the timers are untouched. */
  ghost predicate SamePlayback(p: Player, q: Player) {
    && q.config == p.config
    && q.ready == p.ready
    && q.generation == p.generation
    && q.playerState == p.playerState
    && q.currentFrame == p.currentFrame
    && q.tickPending == p.tickPending
    && q.pendingPolls == p.pendingPolls
  }
}

=== FILE: player_properties.dfy ===
/** Properties of the player that relate several operations or hold over
    whole runs. */
module PlayerProperties {
  import opened Nullable
  import opened FrameModel
  import opened PlayerModel
  import BufferPolicy
  import Loader
  import Playback
  import FrameList
  import opened PlayerApi

  // ---------------------------------------------------------------------
  // The invariant holds in every reachable state.

  lemma ConstructEstablishesInv(config: Config, urls: seq<string>)
    ensures Inv(Construct(config, urls).player)
  {
    var p0 := Initial(config);
    var p1 := if |urls| > 0 then FrameList.SetFrames(p0, urls) else p0;
    var p2 := p1.(ready := true, playerState := PlayerStopped);
    assert p2.fetches == [] && p2.loaderState == LoaderStopped;
    if |p2.frames| > 0 && config.autoPlay {
      Playback.PlayStarts(p2);
    }
  }

  lemma PlayPreservesInv(p: Player)
    requires Inv(p)
    ensures Inv(Playback.Play(p).player)
  {
    if p.ready && p.playerState == PlayerStopped && |p.frames| > 0 {
      Playback.PlayStarts(p);
    }
  }

  lemma FetchDonePreservesInv(p: Player, j: nat)
    requires Inv(p) && j < |p.fetches|
    ensures Inv(Loader.FetchDone(p, j).player)
  {
    var o := Loader.FetchDone(p, j);
    assert forall f :: f in o.player.fetches ==> f in p.fetches || f.generation == p.generation;
  }

  lemma ResetPreservesInv(p: Player, clear: bool)
    requires Inv(p)
    ensures Inv(Reset(p, clear).player)
  {
  }

  /** Every step, whether a call or a resumption, keeps the invariant. */
  lemma StepPreservesInv(p: Player, i: Input)
    requires Inv(p)
    ensures Inv(Step(p, i).player)
  {
    if Enabled(p, i) {
      match i
      case CallPlay => PlayPreservesInv(p);
      case ImageArrives(j) => FetchDonePreservesInv(p, j);
      case CallReset(clear) => ResetPreservesInv(p, clear);
      case _ =>
    }
  }

  /** Every run from a state satisfying the invariant ends in one. */
  lemma {:induction false} RunPreservesInv(p: Player, inputs: seq<Input>)
    requires Inv(p)
    ensures Inv(Run(p, inputs).player)
    decreases |inputs|
  {
    if |inputs| > 0 {
      StepPreservesInv(p, inputs[0]);
      RunPreservesInv(Step(p, inputs[0]).player, inputs[1..]);
    }
  }

  // ---------------------------------------------------------------------
  // Frames keep their URL and never become unloaded.

  /** From `p` to `q` the frame array is never replaced by an older one, and
      while it is the same array it only grows, each frame keeps its URL and
      no loaded frame becomes unloaded. */
  ghost predicate Grows(p: Player, q: Player) {
    && p.generation <= q.generation
    && (q.generation == p.generation ==>
          && |p.frames| <= |q.frames|
          && forall i :: 0 <= i < |p.frames| ==>
               q.frames[i].url == p.frames[i].url
               && (p.frames[i].loaded ==> q.frames[i].loaded))
  }

  lemma GrowsTransitive(p: Player, q: Player, r: Player)
    requires Grows(p, q) && Grows(q, r)
    ensures Grows(p, r)
  {
  }

  lemma StepGrows(p: Player, i: Input)
    ensures Grows(p, Step(p, i).player)
  {
    if Enabled(p, i) {
      match i
      case CallAddFrames(urls) =>
        var q := FrameList.AddFrames(p, urls);
        assert forall k :: 0 <= k < |p.frames| ==> q.frames[k] == q.frames[..|p.frames|][k];
      case _ =>
    }
  }

  /** Over any run, a frame that is still in the same array keeps its URL and
      stays loaded once loaded. */
  lemma {:induction false} RunGrows(p: Player, inputs: seq<Input>)
    ensures Grows(p, Run(p, inputs).player)
    decreases |inputs|
  {
    if |inputs| > 0 {
      var q := Step(p, inputs[0]).player;
      StepGrows(p, inputs[0]);
      RunGrows(q, inputs[1..]);
      GrowsTransitive(p, q, Run(q, inputs[1..]).player);
    }
  }

  /** Only an arriving image changes a load flag: every other step leaves
      the flag of every frame of the same array as it was. */
  lemma OnlyImagesMarkLoaded(p: Player, i: Input)
    requires !i.ImageArrives?
    ensures var q := Step(p, i).player;
      q.generation == p.generation ==>
        forall k :: 0 <= k < |p.frames| ==> q.frames[k].loaded == p.frames[k].loaded
  {
    if Enabled(p, i) {
      match i
      case CallAddFrames(urls) =>
        var q := FrameList.AddFrames(p, urls);
        assert forall k :: 0 <= k < |p.frames| ==> q.frames[k] == q.frames[..|p.frames|][k];
      case _ =>
    }
  }

  // ---------------------------------------------------------------------
  // The loader.

  /** A fetch of the current frame array that completes while LOADING either
      chains a fetch of the very next index, of the same array, or completes
      the load; and it completes the load only from the last frame, firing
      `onLoadComplete` once. */
  lemma ChainedFetchIsNext(p: Player, j: nat)
    requires Inv(p) && j < |p.fetches|
    requires p.loaderState == Loading && p.fetches[j].generation == p.generation
    ensures var o := Loader.FetchDone(p, j); var k := p.fetches[j].index;
      && (o.player.loaderState == Loading ==>
            o.player.fetches == Loader.Without(p.fetches, j) + [Fetch(p.generation, k + 1)]
            && k + 1 < |p.frames|)
      && (o.player.loaderState == Complete ==>
            o.player.lastFrameLoaded == Some(|p.frames| - 1)
            && o.events == [OnLoadProgress(|p.frames|, |p.frames|), OnLoadComplete])
      && (o.player.loaderState == Loading || o.player.loaderState == Complete)
  {
    assert p.fetches[j] in p.fetches;
  }

  /** A fetch that outlived its frame array (cleared or reset meanwhile)
      still sets `lastFrameLoaded`, and when the loader is still LOADING it
      can complete the load of an array that is empty. */
  lemma StaleFetchCompletesEmptyArray(p: Player, j: nat)
    requires Inv(p) && j < |p.fetches|
    requires p.loaderState == Loading && |p.frames| == 0
    ensures var o := Loader.FetchDone(p, j);
      && o.player.loaderState == Complete
      && o.player.lastFrameLoaded == Some(p.fetches[j].index)
      && OnLoadComplete in o.events
  {
  }

  /** `stop()` during loading followed by `play()` starts a second fetch
      while the first is still in flight: the loader is not single-flight. */
  lemma StopThenPlayRefetches(p: Player)
    requires Inv(p) && p.ready && p.playerState != PlayerStopped
    requires p.loaderState == Loading && Loader.ResumePoint(p).Some?
    ensures var o := Playback.Play(Playback.Stop(p).player);
      && o.player.loaderState == Loading
      && o.player.fetches == p.fetches + [Fetch(p.generation, Loader.ResumePoint(p).value)]
      && |o.player.fetches| >= 2
  {
    var s := Playback.Stop(p).player;
    assert Loader.ResumePoint(s) == Loader.ResumePoint(p);
    Playback.PlayStarts(s);
  }

  /** `setFrames` keeps the old `lastFrameLoaded`, so the next `load()`
      resumes after it even though every new frame is unloaded: the frames
      before the resume point are never fetched by that load. */
  lemma SetFramesSkipsFrames(p: Player, urls: seq<string>)
    requires p.lastFrameLoaded.Some? && p.lastFrameLoaded.value + 1 < |urls|
    ensures var q := FrameList.SetFrames(p, urls);
      && Loader.ResumePoint(q) == Some(p.lastFrameLoaded.value + 1)
      && !q.frames[0].loaded
  {
  }

  /** `reset(true)` does not reset the loader: a complete loader stays
      COMPLETE with no frames and no load progress. */
  lemma ResetKeepsComplete(p: Player)
    requires p.loaderState == Complete
    ensures var q := Reset(p, true).player;
      q.loaderState == Complete && |q.frames| == 0 && q.lastFrameLoaded == None
  {
  }

  // ---------------------------------------------------------------------
  // Playback.

  /** `stop()` leaves the scheduled advance in place. When it fires onto an
      unloaded frame it calls `buffer()`, which takes the stopped player out
      of STOPPED again; and when the buffer is already sufficient the player
      is PLAYING and enters that frame. */
  lemma StaleTickAfterStop(p: Player)
    requires p.ready && p.playerState != PlayerStopped && p.tickPending
    requires FrameExists(p, p.currentFrame.GetOr(0) + 1)
    requires !p.frames[p.currentFrame.GetOr(0) + 1].loaded
    ensures var s := Playback.Stop(p).player;
      && s.playerState == PlayerStopped && s.tickPending
      && var o := Playback.Tick(s); var n := p.currentFrame.GetOr(0);
      && o.player.playerState != PlayerStopped
      && OnBufferStart in o.events
      && (!BufferPolicy.RequiresBuffer(s.(currentFrame := Some(n + 1))) ==>
            o.player.playerState == Playing && OnEnterFrame(n + 1) in o.events)
  {
    var s := Playback.Stop(p).player;
    var n := p.currentFrame.GetOr(0);
    var q := s.(tickPending := false);
    var r := q.(currentFrame := Some(n + 1));
    var b := Playback.Buffer(r);
    assert Playback.Tick(s) == Out(b.player, Playback.ExitEvents(s.config, s.currentFrame) + b.events);
    assert BufferPolicy.RequiresBuffer(r) == BufferPolicy.RequiresBuffer(s.(currentFrame := Some(n + 1)));
    if !BufferPolicy.RequiresBuffer(r) {
      assert b.events[2] == OnEnterFrame(n + 1);
    }
  }

  /** The inputs that arrive without a public call: the advance timeout,
      a buffer poll, an image. */
  predicate Resumption(i: Input) {
    i.TimerFires? || i.PollFires? || i.ImageArrives?
  }

  /** The playhead is a number naming an existing frame. */
  predicate PlayheadValid(p: Player) {
    p.currentFrame.Some? && FrameExists(p, p.currentFrame.value)
  }

  /** A single resumption keeps a valid playhead valid. */
  lemma ResumptionKeepsPlayheadInRange(p: Player, i: Input)
    requires Resumption(i) && PlayheadValid(p)
    ensures PlayheadValid(Step(p, i).player)
  {
  }

  /** Left to itself (no public call, only timeouts, polls and images), a
      player whose playhead names a frame never moves it off the array. */
  lemma {:induction false} UnattendedRunKeepsPlayheadInRange(p: Player, inputs: seq<Input>)
    requires forall k :: 0 <= k < |inputs| ==> Resumption(inputs[k])
    requires PlayheadValid(p)
    ensures PlayheadValid(Run(p, inputs).player)
    decreases |inputs|
  {
    if |inputs| > 0 {
      ResumptionKeepsPlayheadInRange(p, inputs[0]);
      UnattendedRunKeepsPlayheadInRange(Step(p, inputs[0]).player, inputs[1..]);
    }
  }

  /** Looping through a four-frame movie: from the last frame the advance
      returns to frame 0 and fires `onLoop` once. */
  lemma LoopFromLastFrame(p: Player)
    requires p.tickPending && |p.frames| == 4 && p.currentFrame == Some(3) && p.config.loop
    ensures var o := Playback.Tick(p);
      o.player.currentFrame == Some(0) && OnLoop in o.events
  {
    Playback.TickAtEnd(p);
  }

  /** Without looping, the advance past the last of four frames stops a
      running player. */
  lemma StopAfterLastFrame(p: Player)
    requires p.tickPending && |p.frames| == 4 && p.currentFrame == Some(3) && !p.config.loop
    requires p.ready
    ensures GetPlayerState(Playback.Tick(p).player) == PlayerStopped
  {
    Playback.TickAtEnd(p);
  }

  // ---------------------------------------------------------------------
  // A concrete run.

  const TwoFrames := Config(false, Percent(30), false, false, {}, {})

  /** Two unloaded frames "a" and "b", nothing loaded yet. */
  ghost predicate FreshTwo(p: Player) {
    && p.ready && p.frames == [New("a"), New("b")] && p.lastFrameLoaded == None
  }

  lemma ConstructTwo()
    ensures var p := Construct(TwoFrames, ["a", "b"]).player;
      && FreshTwo(p) && p.playerState == PlayerStopped && p.loaderState == LoaderStopped
      && p.fetches == []
  {
    var p := Construct(TwoFrames, ["a", "b"]).player;
    assert p.frames[0] == New("a") && p.frames[1] == New("b");
  }

  lemma PlayFresh(p: Player)
    requires FreshTwo(p) && p.playerState == PlayerStopped && p.loaderState == LoaderStopped
    ensures var q := Step(p, CallPlay).player;
      && FreshTwo(q) && q.playerState != PlayerStopped && q.loaderState == Loading
      && q.fetches == p.fetches + [Fetch(p.generation, 0)] && q.generation == p.generation
  {
    assert Loader.ResumePoint(p) == Some(0);
    Playback.PlayStarts(p);
  }

  lemma StopFresh(p: Player)
    requires FreshTwo(p) && p.playerState != PlayerStopped && p.loaderState == Loading
    ensures var q := Step(p, CallStop).player;
      && FreshTwo(q) && q.playerState == PlayerStopped && q.loaderState == LoaderStopped
      && q.fetches == p.fetches && q.generation == p.generation
  {
  }

  lemma FirstImage(p: Player, g: nat)
    requires FreshTwo(p) && p.generation == g && p.loaderState == Loading
    requires p.fetches == [Fetch(g, 0), Fetch(g, 0)]
    ensures var q := Step(p, ImageArrives(0)).player;
      && q.fetches == [Fetch(g, 0), Fetch(g, 1)] && q.loaderState == Loading
      && |q.frames| == 2 && q.frames[0].loaded && !q.frames[1].loaded && q.generation == g
  {
    assert Loader.Without(p.fetches, 0) == [Fetch(g, 0)];
  }

  lemma SecondImage(p: Player, g: nat)
    requires p.generation == g && p.loaderState == Loading
    requires p.fetches == [Fetch(g, 0), Fetch(g, 1)]
    requires |p.frames| == 2 && p.frames[0].loaded
    ensures var q := Step(p, ImageArrives(1)).player;
      && q.fetches == [Fetch(g, 0)] && q.loaderState == Complete
      && |q.frames| == 2 && q.frames[0].loaded && q.frames[1].loaded && q.generation == g
  {
    assert Loader.Without(p.fetches, 1) == [Fetch(g, 0)];
  }

  lemma LateImage(p: Player, g: nat)
    requires p.generation == g && p.loaderState == Complete && p.fetches == [Fetch(g, 0)]
    requires |p.frames| == 2 && p.frames[0].loaded && p.frames[1].loaded
    ensures var q := Step(p, ImageArrives(0)).player;
      && q.loaderState == Complete && q.lastFrameLoaded == Some(0)
      && |q.frames| == 2 && q.frames[0].loaded && q.frames[1].loaded
  {
  }

  /** Play, stop and play again while the first image is in flight: two
      fetches of frame 0 are then pending at once. Once both images and the
      chained one for frame 1 arrive (in the order: first fetch of 0, fetch
      of 1, second fetch of 0), the loader is COMPLETE although
      `lastFrameLoaded` is 0 and not the last index 1. */
  lemma DuplicateFetchRunFrom(p0: Player)
    requires FreshTwo(p0) && p0.playerState == PlayerStopped && p0.loaderState == LoaderStopped
    requires p0.fetches == []
    ensures var p1 := Step(p0, CallPlay).player;
      var p2 := Step(p1, CallStop).player;
      var p3 := Step(p2, CallPlay).player;
      var p4 := Step(p3, ImageArrives(0)).player;
      var p5 := Step(p4, ImageArrives(1)).player;
      var p6 := Step(p5, ImageArrives(0)).player;
      && |p3.fetches| == 2 && p3.fetches[0] == p3.fetches[1]
      && p6.loaderState == Complete && p6.lastFrameLoaded == Some(0)
      && |p6.frames| == 2 && p6.frames[0].loaded && p6.frames[1].loaded
  {
    var g := p0.generation;
    var p1 := Step(p0, CallPlay).player;
    PlayFresh(p0);
    var p2 := Step(p1, CallStop).player;
    StopFresh(p1);
    var p3 := Step(p2, CallPlay).player;
    PlayFresh(p2);
    var p4 := Step(p3, ImageArrives(0)).player;
    FirstImage(p3, g);
    var p5 := Step(p4, ImageArrives(1)).player;
    SecondImage(p4, g);
    LateImage(p5, g);
  }

  /** The same run, starting from a player constructed with the frames "a"
      and "b" and neither `autoPlay` nor `autoLoad`. */
  lemma DuplicateFetchRun()
    ensures var p0 := Construct(TwoFrames, ["a", "b"]).player;
      var p3 := Step(Step(Step(p0, CallPlay).player, CallStop).player, CallPlay).player;
      var p6 := Step(Step(Step(p3, ImageArrives(0)).player, ImageArrives(1)).player, ImageArrives(0)).player;
      && |p3.fetches| == 2 && p3.fetches[0] == p3.fetches[1]
      && p6.loaderState == Complete && p6.lastFrameLoaded == Some(0)
      && |p6.frames| == 2 && p6.frames[0].loaded && p6.frames[1].loaded
  {
    ConstructTwo();
    DuplicateFetchRunFrom(Construct(TwoFrames, ["a", "b"]).player);
  }
}
